=== FILE: README.md ===
# Candys game core in Dafny

A model of the game logic of the Candys Android game (`MainActivity`). A basket is
dragged along the bottom of the screen to catch falling candies (+1 point) and bombs
(−1 point) during a 30-second countdown. In the source this logic is spread across the
activity's callbacks. Here it is lifted into pure functions over an immutable session
record:

- `Geometry`: the collision test `checkCollision`. It is a bounding-box overlap: the
  object's box is shrunk by a 10-unit margin and all four comparisons are strict.
- `Scoring`: the catch rule (+1 candy, −1 bomb) on a signed score, and the score text.
- `Spawner`: a new object's kind and start column. The column is drawn from
  `[0, max(1, screenWidth − 150))`.
- `BasketDrag`: the touch listener. A move centres the basket at the touch's raw x, but
  only when the new column lies strictly inside `(0, screenWidth − basketWidth)`.
- `Poller`: the collision poll that runs for each object. It can end in a catch (score,
  remove, stop polling), a re-poll while the object is above the bottom, or a silent stop.
- `CountdownTimer`: the tick text `"Time: " + millis / 1000` and the terminal text.
- `Decimal`: how Java renders a number in string concatenation. Its inverse is a parser,
  with round-trip lemmas in both directions.
- `Game`: a whole session as a sequence of host events: timer ticks, the timer finish,
  spawn-loop iterations, polls and touches. It proves the session invariant
  (score = candies − bombs; each object is scored at most once) and that the game-over
  flag only ever rises and stops spawning.

The host supplies time, randomness and animation as event parameters:

- the random kind and column of each spawn;
- the height at which the fall animation has an object at each poll;
- the raw x of each touch.

## Behaviour of the code that the model keeps

- The margin shrinks only the object's box, not the basket's. This is the same test as
  shrinking only the basket by 10 (`Geometry.MarginOnBasketSide`), not as shrinking both.
- A poll tests for a collision before it tests whether the object has reached the
  bottom. An object at or below the bottom that still overlaps the basket is caught.
- A drag to a column outside the admissible range is ignored, not clamped to the edge.
  Because the comparison is strict, column 0 itself is never reached by dragging.
- After the game is over, objects already falling are still polled and can still score.
  Only spawning stops.

## Model

| member | source | states |
|---|---|---|
| Geometry.CheckCollision | app/src/main/java/com/siddartharao/candys/MainActivity.java:151-164 | For an object box larger than twice the margin and a non-empty basket box, a hit holds exactly when some point lies strictly inside both the object's box shrunk by 10 and the basket's box. A shrunk object box that exactly meets any side of the basket's box is no hit. |
| Geometry.CollisionIsInteriorOverlap | app/src/main/java/com/siddartharao/candys/MainActivity.java:151-164 | For objects wider and taller than twice the margin, the collision holds exactly when some point lies strictly inside both the object's box shrunk by 10 and the basket's box. So horizontal and vertical overlap are both required. |
| Geometry.MarginOnBasketSide | app/src/main/java/com/siddartharao/candys/MainActivity.java:158-163 | The same test is an overlap of the full object box with the basket box shrunk by 10. The margin is applied once, not on both boxes. |
| Geometry.EdgeContactIsNoHit | app/src/main/java/com/siddartharao/candys/MainActivity.java:160-163 | When the shrunk object box exactly touches the basket on any side (for example objectX + width − 10 == basketX), it is not a hit. |
| Geometry.OverlapByComparisons | app/src/main/java/com/siddartharao/candys/MainActivity.java:160-163 | For non-empty boxes shrunk by any insets, a shared interior point exists exactly when the four strict comparisons hold. |
| Scoring.ApplyCatch | app/src/main/java/com/siddartharao/candys/MainActivity.java:134-138 | A catch moves the score by exactly one, upward exactly for a candy. |
| Scoring.ScoreAfter | app/src/main/java/com/siddartharao/candys/MainActivity.java:134-138 | Applying n catches one by one moves the score by at most n, and by exactly n when every catch is a candy. |
| Scoring.ScoreIsCandiesMinusBombs | app/src/main/java/com/siddartharao/candys/MainActivity.java:134-138 | After any series of catches the score has moved by the number of candies minus the number of bombs. |
| Scoring.ScoreOrderIndependent | app/src/main/java/com/siddartharao/candys/MainActivity.java:134-138 | Two series of catches with the same kinds, in any order, give the same score. |
| Scoring.TallyAppend | app/src/main/java/com/siddartharao/candys/MainActivity.java:134-138 | One more catch changes candies-minus-bombs exactly as the catch rule changes the score. |
| Scoring.ScoreText | app/src/main/java/com/siddartharao/candys/MainActivity.java:139 | The score text is "Score: " followed by the score in canonical signed decimal (no leading zero, minus sign only for negatives), from which the score is recovered exactly. |
| Decimal.NatToString | app/src/main/java/com/siddartharao/candys/MainActivity.java:83 | A non-negative number renders as a non-empty string of digits with no leading zero ("0" only for zero). |
| Decimal.IntToString | app/src/main/java/com/siddartharao/candys/MainActivity.java:139 | A negative score renders with a leading minus sign and a non-negative one as its digits, always in canonical form. |
| Decimal.DigitsValueOfNatToString | app/src/main/java/com/siddartharao/candys/MainActivity.java:83 | The digits rendered for n denote n. |
| Decimal.NatRoundTrip | app/src/main/java/com/siddartharao/candys/MainActivity.java:83 | Parsing the rendered digits gives the number back. |
| Decimal.CanonicalRoundTrip | app/src/main/java/com/siddartharao/candys/MainActivity.java:83 | Every digit string without a leading zero is the rendering of its own value. |
| Decimal.IntRoundTrip | app/src/main/java/com/siddartharao/candys/MainActivity.java:139 | Parsing a rendered signed integer gives it back. |
| Decimal.IntToStringInjective | app/src/main/java/com/siddartharao/candys/MainActivity.java:139 | Two scores show the same text exactly when they are equal. |
| Decimal.LabelledRoundTrip | app/src/main/java/com/siddartharao/candys/MainActivity.java:83 | A prefix followed by a rendered number can be split back into the number. |
| Spawner.SpawnBound | app/src/main/java/com/siddartharao/candys/MainActivity.java:114 | The draw bound is at least 1 and is the larger of 1 and screenWidth − 150. |
| Spawner.Spawn | app/src/main/java/com/siddartharao/candys/MainActivity.java:109-116 | A spawned object is a candy exactly when the coin says ball. It starts at height 0, in exactly the drawn column, which lies in [0, bound). On a screen wider than 150 it fits horizontally inside the screen. |
| Spawner.SpawnRangeNeverEmpty | app/src/main/java/com/siddartharao/candys/MainActivity.java:112-115 | Column 0 is always a valid draw, so a spawn never asks for a number from an empty range. On screens no wider than 151, column 0 is the only valid draw. |
| BasketDrag.Centred | app/src/main/java/com/siddartharao/candys/MainActivity.java:59 | The candidate column puts the basket's centre at the touch's raw x. |
| BasketDrag.Admissible | app/src/main/java/com/siddartharao/candys/MainActivity.java:60 | A column is accepted exactly when the whole basket then lies strictly inside the screen: left edge above 0 and right edge below screenWidth. |
| BasketDrag.OnTouch | app/src/main/java/com/siddartharao/candys/MainActivity.java:57-63 | The basket moves only on a move event whose centred column is strictly inside (0, screenWidth − basketWidth), and then its centre is at the touch's raw x. Otherwise it stays where it was. |
| BasketDrag.DragKeepsBasketOnScreen | app/src/main/java/com/siddartharao/candys/MainActivity.java:59-62 | If the whole basket is on screen before a touch, it is still on screen after it. |
| BasketDrag.DragIdempotent | app/src/main/java/com/siddartharao/candys/MainActivity.java:59-62 | Repeating the same move leaves the basket where the first move put it. |
| CountdownTimer.SecondsLeft | app/src/main/java/com/siddartharao/candys/MainActivity.java:83 | The seconds shown are the whole seconds contained in the remaining milliseconds. |
| CountdownTimer.TickText | app/src/main/java/com/siddartharao/candys/MainActivity.java:82-84 | The tick text is "Time: " followed by the seconds left in canonical decimal (no leading zero), recoverable exactly from the text. |
| CountdownTimer.TickTextDistinguishesSeconds | app/src/main/java/com/siddartharao/candys/MainActivity.java:83-89 | Two ticks show the same text exactly when they fall in the same second. No tick text equals "Game Over!\n\nrestart game". |
| CountdownTimer.SecondsShownDuringSession | app/src/main/java/com/siddartharao/candys/MainActivity.java:80-84 | Within the 30000 ms session the seconds shown are at most 30 and never increase as time runs out. |
| Poller.Poll | app/src/main/java/com/siddartharao/candys/MainActivity.java:132-143 | A poll is a catch of the object's own kind exactly when the collision holds. It re-polls exactly when there is no collision and y < screenHeight, and otherwise it stops. |
| Poller.PollStep | app/src/main/java/com/siddartharao/candys/MainActivity.java:132-143 | Only a catch changes the score, and it does so by the catch rule. A re-poll or a stop leaves the score unchanged. |
| Poller.PollTrace | app/src/main/java/com/siddartharao/candys/MainActivity.java:129-146 | The i-th poll of the re-post chain decides on the i-th sample: the object's height and the basket's box as read at that poll, so the basket may move between polls. Every poll but the last re-posted. The chain ends before the samples run out only on a catch or a stop. |
| Poller.PollTraceResolvesOnce | app/src/main/java/com/siddartharao/candys/MainActivity.java:129-146 | Over an object's successive polls, wherever the basket is at each one, every poll but the last re-polled, and polling ends early only on a catch or a stop. At most one catch occurs, of the object's kind and only as the last poll. |
| Poller.TraceScoresAtMostOnce | app/src/main/java/com/siddartharao/candys/MainActivity.java:131-145 | Over an object's whole polling, with the basket free to move between polls, the score moves by at most one catch of its kind. It moves exactly when the polling ended in a catch. |
| Poller.CatchScenario | app/src/main/java/com/siddartharao/candys/MainActivity.java:132-139 | A 150-unit candy in column 420 at height 1900, with a 150×50 basket at (400, 1900), is caught and scores 1. |
| Game.Start | app/src/main/java/com/siddartharao/candys/MainActivity.java:27-30 | A session starts with score 0, not over, with no objects and no catches. |
| Game.PollObject | app/src/main/java/com/siddartharao/candys/MainActivity.java:131-144 | A poll keeps the object live, at its sampled height, exactly when it re-posts. A catch removes it, applies the catch rule to the score and records the catch. A re-post or a stop leaves the score and the catches alone, and a stop drops the object. Each outcome's whole new session is stated: the basket, the flag, the timer text and the id counter never change, and the score text changes only on a catch, to the new score. |
| Game.Step | app/src/main/java/com/siddartharao/candys/MainActivity.java:80-103 | The game-over flag never falls. It rises only on the timer's finish, which also shows "Game Over!\n\nrestart game". A tick shows "Time: " with the seconds left. A poll of a live object is that object's poll, and a poll of any other id changes nothing. A touch moves the basket by the drag rule. While the game runs, a spawn adds one new object under a fresh id and leaves the others alone. Once the game is over, a spawn changes nothing. The finish changes only the flag and the timer text. |
| Game.CatchPreservesValid | app/src/main/java/com/siddartharao/candys/MainActivity.java:134-140 | A catch of a live object keeps the session invariant. The new catch is of an object not caught before, and the score and score text move together with the record of catches. |
| Game.PollObjectPreservesValid | app/src/main/java/com/siddartharao/candys/MainActivity.java:131-144 | A poll keeps the session invariant: score = candies − bombs caught, no object caught twice, caught objects never polled again, and the score text shows the score. |
| Game.StepPreservesValid | app/src/main/java/com/siddartharao/candys/MainActivity.java:80-146 | Every event keeps the session invariant. |
| Game.RunPreservesValid | app/src/main/java/com/siddartharao/candys/MainActivity.java:80-146 | Every series of events keeps the session invariant. |
| Game.ScoreCountsEachCatchOnce | app/src/main/java/com/siddartharao/candys/MainActivity.java:134-140 | From the start, for any events in any order, the score is the candies caught minus the bombs caught. No object is scored twice, and the score text shows the score once anything has been caught. |
| Game.GameOverIsFinal | app/src/main/java/com/siddartharao/candys/MainActivity.java:88-96 | Once the game is over it stays over, and the spawn loop adds no object, whatever events follow. |
| Game.OnlyFinishEndsTheGame | app/src/main/java/com/siddartharao/candys/MainActivity.java:86-90 | Without a finish event the game-over flag keeps its value across any events. |
| Game.SpawnWhileRunning | app/src/main/java/com/siddartharao/candys/MainActivity.java:94-116 | While the game runs, a spawn-loop iteration adds exactly one new object under a fresh id. It starts at height 0, in the drawn column within the draw range, and is of the drawn kind. Every object already falling is left unchanged. |
| Game.FallingObjectsOutliveTheGame | app/src/main/java/com/siddartharao/candys/MainActivity.java:87-90 | The finish keeps every falling object live and leaves the score and the catches alone. The object's next poll is handled as before, so it can still be caught after the game is over. |
| Game.DeadObjectIsNotPolled | app/src/main/java/com/siddartharao/candys/MainActivity.java:140-143 | A poll of an object that was already caught changes nothing. |

## Left out

- Android lifecycle, layout, insets, night mode, view lookup and the restart by
  `recreate()`. These are platform glue; a restart is a new `Game.Start`.
- Rendering and the fall animation. The height of an object at each poll is an event
  parameter. The animation's end action removes only the view, which the model does not
  hold. Polling is still decided by the poll rule alone.
- `Handler.postDelayed`, the spawn thread's one-second sleep and `runOnUiThread`. Each
  poll, spawn and tick is one event, and events are applied one at a time. The race
  between the spawn thread reading `isGameOver` and the UI thread setting it is not
  modelled.
- `CountDownTimer` timing. Only the text for a given remaining time and the finish
  transition are modelled. The host decides when ticks arrive. `Game.Step` applies a
  tick whenever one arrives; `CountDownTimer` delivers none after its finish, so the
  model does not forbid a tick after the finish.
- `java.util.Random`. The kind and the column draw are event parameters. A draw is
  assumed to lie in `[0, bound)`, which `nextInt` guarantees.
- Screen size before layout. The screen width and height are 0 (line 28) until the
  callback posted at lines 51-54 runs. `Game.Playfield` fixes them for the whole session,
  so a spawn in that first window is not modelled: it would draw `nextInt(1)` and fall
  to height 0, and its first poll would stop at once.
- Coordinate frames. `getRawX()` is a screen coordinate, while `setX` and `screenWidth`
  are in the game layout's coordinates. The model treats them as one frame. The basket's
  centre lands under the finger only when the layout starts at screen x 0, which the
  system-bar padding of lines 37-41 can change.
- Floating point. View coordinates are exact reals and sizes are naturals, so float
  rounding in `getX()`, `getRawX()` and `width / 2f` is not modelled.
- Game.ObjectRect: a falling object's measured size is always taken to be 150. Before
  Android's first layout pass `getWidth()` can return 0. The poll functions in `Poller`
  take the measured size as a parameter and so cover that case; the session model does not.
- Scoring.ApplyCatch: does not model 32-bit wrap-around of the Java `int` score, which
  would need more than two billion catches.
- Logging (`Log.d`).
- The `caught` log and the object ids in `Game.Session` are not in the source. They record
  catches so that the at-most-once and candies-minus-bombs properties can be stated.

=== FILE: basket_drag.dfy ===
/** Dragging the basket: a move event centres the basket at the touch's raw x, but only
    when the new position lies strictly inside the screen; otherwise it stays put. */
module BasketDrag {

  /** The kinds of touch event the basket receives; only a move repositions it. */
  datatype TouchAction = Down | Move | Up | OtherAction

  /** The column that puts the basket's centre at the touch's raw x. */
  function Centred(rawX: real, basketWidth: nat): (x: real)
    ensures x + basketWidth as real / 2.0 == rawX
  {
    rawX - basketWidth as real / 2.0
  }

  /** Columns the drag accepts: strictly between the left edge and the last column
      at which the basket still fits. */
  function Admissible(x: real, basketWidth: nat, screenWidth: int): (ok: bool)
    ensures ok <==> 0.0 < x && x + basketWidth as real < screenWidth as real
  {
    0.0 < x && x < (screenWidth - basketWidth) as real
  }

  /** The basket's column after a touch event. */
  function OnTouch(basketX: real, action: TouchAction, rawX: real, basketWidth: nat, screenWidth: int): (x': real)
    ensures x' != basketX ==>
              action == Move && Admissible(x', basketWidth, screenWidth)
              && x' + basketWidth as real / 2.0 == rawX
    ensures action == Move && Admissible(Centred(rawX, basketWidth), basketWidth, screenWidth) ==>
              x' + basketWidth as real / 2.0 == rawX
    ensures action != Move || !Admissible(Centred(rawX, basketWidth), basketWidth, screenWidth) ==>
              x' == basketX
  {
    var x := Centred(rawX, basketWidth);
    if action == Move && Admissible(x, basketWidth, screenWidth) then x else basketX
  }

  /** Whole-basket-on-screen is an invariant of dragging. */
  lemma DragKeepsBasketOnScreen(basketX: real, action: TouchAction, rawX: real, basketWidth: nat, screenWidth: int)
    requires 0.0 <= basketX <= (screenWidth - basketWidth) as real
    ensures var x' := OnTouch(basketX, action, rawX, basketWidth, screenWidth);
            0.0 <= x' <= (screenWidth - basketWidth) as real
  {
  }

  /** Repeating the same move changes nothing further. */
  lemma DragIdempotent(basketX: real, rawX: real, basketWidth: nat, screenWidth: int)
    ensures var x' := OnTouch(basketX, Move, rawX, basketWidth, screenWidth);
            OnTouch(x', Move, rawX, basketWidth, screenWidth) == x'
  {
  }
}

=== FILE: countdown_timer.dfy ===
/** The session countdown: thirty seconds in one-second ticks, each tick showing the
    whole seconds left, and a terminal message once the time is up. */
module CountdownTimer {
  import opened Decimal

  const SessionMillis: nat := 30000
  const IntervalMillis: nat := 1000
  const TimePrefix: string := "Time: "
  const GameOverText: string := "Game Over!\n\nrestart game"

  /** Whole seconds left; the division truncates, which for a non-negative count is
      the same as rounding down. */
  function SecondsLeft(millisUntilFinished: nat): (s: nat)
    ensures s * 1000 <= millisUntilFinished < (s + 1) * 1000
  {
    millisUntilFinished / 1000
  }

  /** The timer view's text on a tick. */
  function TickText(millisUntilFinished: nat): (t: string)
    ensures ParseLabelled(TimePrefix, t) == Some(SecondsLeft(millisUntilFinished) as int)
    ensures |t| > |TimePrefix| && t[..|TimePrefix|] == TimePrefix && Canonical(t[|TimePrefix|..])
  {
    LabelledRoundTrip(TimePrefix, SecondsLeft(millisUntilFinished));
    Labelled(TimePrefix, SecondsLeft(millisUntilFinished))
  }

  /** Two ticks show the same text exactly when they fall in the same second, and no
      tick ever shows the terminal message. */
  lemma TickTextDistinguishesSeconds(m1: nat, m2: nat)
    ensures TickText(m1) == TickText(m2) <==> SecondsLeft(m1) == SecondsLeft(m2)
    ensures TickText(m1) != GameOverText
  {
    var t := TickText(m1);
    assert t[..|TimePrefix|] == TimePrefix;
    assert GameOverText[0] != TimePrefix[0];
  }

  /** During the session the countdown shows at most thirty and never increases as time runs out. */
  lemma SecondsShownDuringSession(m1: nat, m2: nat)
    requires m1 <= m2 <= SessionMillis
    ensures SecondsLeft(m1) <= SecondsLeft(m2) <= SessionMillis / IntervalMillis
  {
  }
}

=== FILE: decimal.dfy ===
/** Decimal rendering of integers, as Java's string concatenation (`"Time: " + n`,
    `"Score: " + score`) turns a number into text, together with a parser that serves
    as its inverse: parsing the rendered text gives the number back. */
module Decimal {

  datatype Option<T> = None | Some(value: T)

  predicate IsDigit(c: char) {
    '0' <= c <= '9'
  }

  predicate AllDigits(s: string) {
    forall i :: 0 <= i < |s| ==> IsDigit(s[i])
  }

  /** The character of a single decimal digit. */
  function DigitChar(d: nat): (c: char)
    requires d < 10
    ensures IsDigit(c)
  {
    ('0' as int + d) as char
  }

  /** The numeric value of a digit character. */
  function DigitValue(c: char): (d: nat)
    requires IsDigit(c)
    ensures d < 10
  {
    c as int - '0' as int
  }

  /** Reading back the character of a digit gives the digit. */
  lemma DigitCharValue(d: nat)
    requires d < 10
    ensures DigitValue(DigitChar(d)) == d
  {
  }

  /** Writing the value of a digit character gives the character. */
  lemma DigitValueChar(c: char)
    requires IsDigit(c)
    ensures DigitChar(DigitValue(c)) == c
  {
  }

  /** The decimal text of `n`: digits only, most significant first, no leading zero. */
  function NatToString(n: nat): (s: string)
    ensures |s| >= 1
    ensures AllDigits(s)
    ensures s[0] == '0' <==> n == 0
    ensures n == 0 ==> |s| == 1
    decreases n
  {
    if n < 10 then [DigitChar(n)] else NatToString(n / 10) + [DigitChar(n % 10)]
  }

  /** The number a digit string denotes (the empty string denotes 0). */
  function DigitsValue(s: string): nat
    requires AllDigits(s)
    decreases |s|
  {
    if |s| == 0 then 0 else DigitsValue(s[..|s| - 1]) * 10 + DigitValue(s[|s| - 1])
  }

  /** Parses a non-empty string of digits; anything else is rejected. */
  function ParseNat(s: string): (r: Option<nat>)
    ensures r.Some? <==> |s| >= 1 && AllDigits(s)
  {
    if |s| >= 1 && AllDigits(s) then Some(DigitsValue(s)) else None
  }

  /** A digit string as `NatToString` writes it: non-empty and without a leading zero. */
  predicate Canonical(s: string) {
    |s| >= 1 && AllDigits(s) && (s[0] == '0' ==> |s| == 1)
  }

  /** A signed decimal as `IntToString` writes it: a canonical magnitude, preceded by a
      minus sign only when the magnitude is not zero. */
  predicate CanonicalInt(s: string) {
    Canonical(s) || (|s| >= 2 && s[0] == '-' && s[1] != '0' && Canonical(s[1..]))
  }

  lemma {:induction false} DigitsValueOfNatToString(n: nat)
    ensures DigitsValue(NatToString(n)) == n
    decreases n
  {
    var s := NatToString(n);
    if n < 10 {
      DigitCharValue(n);
    } else {
      assert s[..|s| - 1] == NatToString(n / 10);
      DigitsValueOfNatToString(n / 10);
      DigitCharValue(n % 10);
    }
  }

  /** Parsing what `NatToString` wrote gives the number back. */
  lemma NatRoundTrip(n: nat)
    ensures ParseNat(NatToString(n)) == Some(n)
  {
    DigitsValueOfNatToString(n);
  }

  lemma {:induction false} LeadingDigitPositive(s: string)
    requires |s| >= 1 && AllDigits(s) && s[0] != '0'
    ensures DigitsValue(s) >= 1
    decreases |s|
  {
    if |s| > 1 {
      LeadingDigitPositive(s[..|s| - 1]);
    }
  }

  /** Conversely, rendering the value of a canonical digit string gives the string back. */
  lemma {:induction false} CanonicalRoundTrip(s: string)
    requires Canonical(s)
    ensures NatToString(DigitsValue(s)) == s
    decreases |s|
  {
    var c := s[|s| - 1];
    DigitValueChar(c);
    if |s| > 1 {
      var p := s[..|s| - 1];
      LeadingDigitPositive(p);
      CanonicalRoundTrip(p);
      var v := DigitsValue(p);
      var n := v * 10 + DigitValue(c);
      assert n / 10 == v && n % 10 == DigitValue(c);
      assert s == p + [c];
    }
  }

  /** Java's rendering of a signed integer: a minus sign before the magnitude when negative. */
  function IntToString(i: int): (s: string)
    ensures |s| >= 1
    ensures s[0] == '-' <==> i < 0
    ensures i >= 0 ==> s == NatToString(i)
    ensures CanonicalInt(s)
  {
    if i < 0 then
      var neg := "-" + NatToString(-i);
      assert neg[1..] == NatToString(-i);
      neg
    else NatToString(i)
  }

  /** Parses an optional minus sign followed by digits. */
  function ParseInt(s: string): (r: Option<int>)
  {
    if |s| >= 1 && s[0] == '-' then
      match ParseNat(s[1..])
      case Some(n) => Some(0 - n as int)
      case None => None
    else
      match ParseNat(s)
      case Some(n) => Some(n as int)
      case None => None
  }

  /** Parsing what `IntToString` wrote gives the integer back. */
  lemma IntRoundTrip(i: int)
    ensures ParseInt(IntToString(i)) == Some(i)
  {
    if i < 0 {
      assert IntToString(i)[1..] == NatToString(-i);
      NatRoundTrip(-i);
    } else {
      NatRoundTrip(i);
    }
  }

  /** Different integers are rendered as different texts. */
  lemma IntToStringInjective(i: int, j: int)
    ensures IntToString(i) == IntToString(j) <==> i == j
  {
    IntRoundTrip(i);
    IntRoundTrip(j);
  }

  /** A fixed prefix followed by a rendered number: the shape of the game's texts. */
  function Labelled(prefix: string, i: int): (t: string)
    ensures |t| > |prefix| && t[..|prefix|] == prefix
    ensures CanonicalInt(t[|prefix|..])
  {
    assert (prefix + IntToString(i))[|prefix|..] == IntToString(i);
    prefix + IntToString(i)
  }

  /** Recovers the number from a text that starts with `prefix`. */
  function ParseLabelled(prefix: string, t: string): Option<int>
  {
    if |t| >= |prefix| && t[..|prefix|] == prefix then ParseInt(t[|prefix|..]) else None
  }

  lemma LabelledRoundTrip(prefix: string, i: int)
    ensures ParseLabelled(prefix, Labelled(prefix, i)) == Some(i)
  {
    assert Labelled(prefix, i)[|prefix|..] == IntToString(i);
    IntRoundTrip(i);
  }
}

=== FILE: game.dfy ===
/** One game session driven by the events its host delivers: countdown ticks and the
    finish, spawn-loop iterations, per-object collision polls and basket touches. The
    host owns time, randomness and animation; each event carries what it supplies. */
module Game {
  import opened Geometry
  import opened Scoring
  import opened Spawner
  import opened BasketDrag
  import opened Poller
  import opened CountdownTimer

  /** The screen and basket geometry, fixed once the layout is known. */
  datatype Playfield = Playfield(screenWidth: int, screenHeight: int, basketY: real, basketWidth: nat, basketHeight: nat)

  /** A scoring event: which object was caught, and what it was. */
  datatype Catch = Catch(id: nat, kind: Kind)

  /** The session. `live` holds the objects whose poll is still scheduled, keyed by the
      order in which they were spawned; `caught` records every catch in order, so that
      the score can be related to the catches that produced it. */
  datatype Session = Session(
    score: int,
    isGameOver: bool,
    timerText: string,
    scoreText: string,
    basketX: real,
    live: map<nat, FallingObject>,
    nextId: nat,
    caught: seq<Catch>)

  datatype Event =
    | Tick(millisUntilFinished: nat)
    | Finish
    | SpawnTick(isBall: bool, draw: int)
    | PollTick(id: nat, y: real)
    | Touch(action: TouchAction, rawX: real)

  /** A fresh session; the two texts and the basket column are whatever the layout shows. */
  function Start(timerText: string, scoreText: string, basketX: real): (s: Session)
    ensures s.score == 0 && !s.isGameOver && s.live == map[] && s.caught == []
  {
    Session(0, false, timerText, scoreText, basketX, map[], 0, [])
  }

  function BasketRect(pf: Playfield, basketX: real): Rect {
    Rect(basketX, pf.basketY, pf.basketWidth, pf.basketHeight)
  }

  function ObjectRect(o: FallingObject): Rect {
    Rect(o.x, o.y, ObjectSize, ObjectSize)
  }

  /** Events the host can deliver: a spawn draw always lies in the draw range. */
  predicate ValidEvent(pf: Playfield, e: Event) {
    e.SpawnTick? ==> ValidDraw(e.draw, pf.screenWidth)
  }

  predicate ValidEvents(pf: Playfield, es: seq<Event>) {
    forall i :: 0 <= i < |es| ==> ValidEvent(pf, es[i])
  }

  /** The object `id` after the poll that samples it at height `y`. */
  function PollObject(pf: Playfield, s: Session, id: nat, y: real): (s': Session)
    requires id in s.live
    ensures s'.isGameOver == s.isGameOver && s'.nextId == s.nextId && s'.timerText == s.timerText
    ensures s'.live.Keys <= s.live.Keys
    ensures var o := s.live[id].(y := y);
            var r := Poll(o.kind, ObjectRect(o), BasketRect(pf, s.basketX), pf.screenHeight);
            && (id in s'.live <==> r.Reschedule?)
            && (r.Reschedule? ==> s'.live == s.live[id := o])
            && (!r.Reschedule? ==> s'.live == s.live - {id})
            && (r.Caught? ==> s'.score == ApplyCatch(s.score, o.kind) && s'.caught == s.caught + [Catch(id, o.kind)])
            && (!r.Caught? ==> s'.score == s.score && s'.caught == s.caught)
    ensures var o := s.live[id].(y := y);
            var r := Poll(o.kind, ObjectRect(o), BasketRect(pf, s.basketX), pf.screenHeight);
            && (r.Reschedule? ==> s' == s.(live := s.live[id := o]))
            && (r.Stop? ==> s' == s.(live := s.live - {id}))
            && (r.Caught? ==>
                  s' == s.(score := ApplyCatch(s.score, o.kind), scoreText := ScoreText(ApplyCatch(s.score, o.kind)),
                           live := s.live - {id}, caught := s.caught + [Catch(id, o.kind)]))
  {
    var o := s.live[id].(y := y);
    var out := PollStep(s.score, o.kind, ObjectRect(o), BasketRect(pf, s.basketX), pf.screenHeight);
    match out.result
    case Caught(k) =>
      s.(score := out.score, scoreText := ScoreText(out.score), live := s.live - {id},
         caught := s.caught + [Catch(id, k)])
    case Reschedule => s.(live := s.live[id := o])
    case Stop => s.(live := s.live - {id})
  }

  /** The session after one event. */
  function Step(pf: Playfield, s: Session, e: Event): (s': Session)
    requires ValidEvent(pf, e)
    ensures s.isGameOver ==> s'.isGameOver
    ensures s'.isGameOver != s.isGameOver ==> e == Finish
    ensures e.Finish? ==> s'.isGameOver && s'.timerText == GameOverText
    ensures e.Finish? ==> s' == s.(isGameOver := true, timerText := GameOverText)
    ensures e.SpawnTick? && s.isGameOver ==> s' == s
    ensures s.isGameOver ==> s'.nextId == s.nextId && s'.live.Keys <= s.live.Keys
    ensures s'.nextId == s.nextId || (e.SpawnTick? && s'.nextId == s.nextId + 1)
    ensures e.Tick? ==> s' == s.(timerText := TickText(e.millisUntilFinished))
    ensures e.PollTick? && e.id in s.live ==> s' == PollObject(pf, s, e.id, e.y)
    ensures e.PollTick? && e.id !in s.live ==> s' == s
    ensures e.Touch? ==>
              s' == s.(basketX := OnTouch(s.basketX, e.action, e.rawX, pf.basketWidth, pf.screenWidth))
    ensures e.SpawnTick? && !s.isGameOver ==>
              s' == s.(live := s.live[s.nextId := Spawn(e.isBall, e.draw, pf.screenWidth)], nextId := s.nextId + 1)
  {
    match e
    case Tick(m) => s.(timerText := TickText(m))
    case Finish => s.(isGameOver := true, timerText := GameOverText)
    case SpawnTick(isBall, draw) =>
      if s.isGameOver then s
      else s.(live := s.live[s.nextId := Spawn(isBall, draw, pf.screenWidth)], nextId := s.nextId + 1)
    case PollTick(id, y) => if id in s.live then PollObject(pf, s, id, y) else s
    case Touch(action, rawX) =>
      s.(basketX := OnTouch(s.basketX, action, rawX, pf.basketWidth, pf.screenWidth))
  }

  /** The session after a series of events. */
  function Run(pf: Playfield, s: Session, es: seq<Event>): Session
    requires ValidEvents(pf, es)
    decreases |es|
  {
    if |es| == 0 then s else Run(pf, Step(pf, s, es[0]), es[1..])
  }

  function CaughtKindsOf(cs: seq<Catch>): (ks: seq<Kind>)
    ensures |ks| == |cs| && forall i :: 0 <= i < |cs| ==> ks[i] == cs[i].kind
  {
    seq(|cs|, i requires 0 <= i < |cs| => cs[i].kind)
  }

  /** No object appears twice among the catches. */
  predicate CatchesDistinct(cs: seq<Catch>) {
    forall i, j :: 0 <= i < j < |cs| ==> cs[i].id != cs[j].id
  }

  /** Every caught object has been handed out and is no longer polled. */
  predicate CaughtAreDead(cs: seq<Catch>, live: map<nat, FallingObject>, nextId: nat) {
    forall i :: 0 <= i < |cs| ==> cs[i].id !in live && cs[i].id < nextId
  }

  /** What holds of every reachable session: the score is candies caught minus bombs
      caught, no object is caught twice, a caught object is polled no more, and every
      id in use was handed out by the spawner. */
  predicate Valid(s: Session) {
    && s.score == Tally(CaughtKindsOf(s.caught))
    && CatchesDistinct(s.caught)
    && CaughtAreDead(s.caught, s.live, s.nextId)
    && (forall id :: id in s.live ==> id < s.nextId)
    && (|s.caught| > 0 ==> s.scoreText == ScoreText(s.score))
  }

  lemma CatchPreservesValid(s: Session, id: nat, k: Kind)
    requires id in s.live && Valid(s)
    ensures var score := ApplyCatch(s.score, k);
            Valid(s.(score := score, scoreText := ScoreText(score), live := s.live - {id},
                     caught := s.caught + [Catch(id, k)]))
  {
    var cs := s.caught + [Catch(id, k)];
    assert CaughtKindsOf(cs) == CaughtKindsOf(s.caught) + [k];
    TallyAppend(CaughtKindsOf(s.caught), k);
    assert CatchesDistinct(cs) by {
      forall i, j | 0 <= i < j < |cs| ensures cs[i].id != cs[j].id {
        if j == |s.caught| {
          assert cs[i] == s.caught[i];
        } else {
          assert cs[i] == s.caught[i] && cs[j] == s.caught[j];
        }
      }
    }
    assert CaughtAreDead(cs, s.live - {id}, s.nextId) by {
      forall i | 0 <= i < |cs| ensures cs[i].id !in s.live - {id} && cs[i].id < s.nextId {
        if i < |s.caught| {
          assert cs[i] == s.caught[i];
        }
      }
    }
  }

  lemma PollObjectPreservesValid(pf: Playfield, s: Session, id: nat, y: real)
    requires id in s.live && Valid(s)
    ensures Valid(PollObject(pf, s, id, y))
  {
    var o := s.live[id].(y := y);
    var out := PollStep(s.score, o.kind, ObjectRect(o), BasketRect(pf, s.basketX), pf.screenHeight);
    if out.result.Caught? {
      CatchPreservesValid(s, id, out.result.kind);
    }
  }

  lemma StepPreservesValid(pf: Playfield, s: Session, e: Event)
    requires ValidEvent(pf, e) && Valid(s)
    ensures Valid(Step(pf, s, e))
  {
    if e.PollTick? && e.id in s.live {
      PollObjectPreservesValid(pf, s, e.id, e.y);
    }
  }

  /** Every session reachable by events from a valid one is valid. */
  lemma {:induction false} RunPreservesValid(pf: Playfield, s: Session, es: seq<Event>)
    requires ValidEvents(pf, es) && Valid(s)
    ensures Valid(Run(pf, s, es))
    decreases |es|
  {
    if |es| > 0 {
      StepPreservesValid(pf, s, es[0]);
      RunPreservesValid(pf, Step(pf, s, es[0]), es[1..]);
    }
  }

  /** From the start of a game, whatever the events and in whatever order the objects
      are caught, the score is the number of candies caught minus the number of bombs
      caught, each object is scored at most once, and the score text shows the score
      once anything has been caught. */
  lemma ScoreCountsEachCatchOnce(pf: Playfield, timerText: string, scoreText: string, basketX: real, es: seq<Event>)
    requires ValidEvents(pf, es)
    ensures var s := Run(pf, Start(timerText, scoreText, basketX), es);
            var ks := CaughtKindsOf(s.caught);
            s.score == multiset(ks)[Candy] as int - multiset(ks)[Bomb] as int
            && (forall i, j :: 0 <= i < j < |s.caught| ==> s.caught[i].id != s.caught[j].id)
            && (|s.caught| > 0 ==> s.scoreText == ScoreText(s.score))
  {
    RunPreservesValid(pf, Start(timerText, scoreText, basketX), es);
  }

  /** Once the game is over it stays over, and the spawn loop adds no further objects;
      objects already falling may still be polled, caught or dropped. */
  lemma {:induction false} GameOverIsFinal(pf: Playfield, s: Session, es: seq<Event>)
    requires ValidEvents(pf, es) && s.isGameOver
    ensures var s' := Run(pf, s, es);
            s'.isGameOver && s'.nextId == s.nextId && s'.live.Keys <= s.live.Keys
    decreases |es|
  {
    if |es| > 0 {
      GameOverIsFinal(pf, Step(pf, s, es[0]), es[1..]);
    }
  }

  /** Only the timer's finish ends the game: without it the flag never changes. */
  lemma {:induction false} OnlyFinishEndsTheGame(pf: Playfield, s: Session, es: seq<Event>)
    requires ValidEvents(pf, es)
    requires forall i :: 0 <= i < |es| ==> !es[i].Finish?
    ensures Run(pf, s, es).isGameOver == s.isGameOver
    decreases |es|
  {
    if |es| > 0 {
      OnlyFinishEndsTheGame(pf, Step(pf, s, es[0]), es[1..]);
    }
  }

  /** While the game runs, each spawn-loop iteration adds exactly one new object at the
      top of the screen, in a column inside the draw range. */
  lemma SpawnWhileRunning(pf: Playfield, s: Session, isBall: bool, draw: int)
    requires !s.isGameOver && ValidDraw(draw, pf.screenWidth) && Valid(s)
    ensures var s' := Step(pf, s, SpawnTick(isBall, draw));
            s.nextId !in s.live
            && s'.live.Keys == s.live.Keys + {s.nextId}
            && s'.live[s.nextId].y == 0.0
            && 0.0 <= s'.live[s.nextId].x < SpawnBound(pf.screenWidth) as real
            && s'.live[s.nextId].x == draw as real
            && (s'.live[s.nextId].kind == Candy <==> isBall)
            && (forall k :: k in s.live ==> s'.live[k] == s.live[k])
  {
  }

  /** A poll of an object no longer live (already caught or stopped) changes nothing. */
  /** Finishing the game does not remove the objects already falling: each stays live,
      and its next poll is handled exactly as before, so it can still be caught and
      change the score after the game is over. */
  lemma FallingObjectsOutliveTheGame(pf: Playfield, s: Session, id: nat, y: real)
    requires id in s.live
    ensures var f := Step(pf, s, Finish);
            && id in f.live && f.live == s.live
            && f.score == s.score && f.caught == s.caught
            && Step(pf, f, PollTick(id, y)) == PollObject(pf, f, id, y)
  {
  }

  lemma DeadObjectIsNotPolled(pf: Playfield, s: Session, id: nat, y: real)
    requires Valid(s) && exists i :: 0 <= i < |s.caught| && s.caught[i].id == id
    ensures Step(pf, s, PollTick(id, y)) == s
  {
  }
}

=== FILE: geometry.dfy ===
/** The collision test between a falling object and the basket: an axis-aligned
    bounding-box overlap in which the object's box is shrunk by a fixed margin, with
    strict comparisons, so that touching edges are not a catch. */
module Geometry {

  /** How far the collision test forgives contact on each side. */
  const Margin: real := 10.0

  /** A view's box: top-left corner on screen and measured size. */
  datatype Rect = Rect(x: real, y: real, width: nat, height: nat) {
    function Right(): real { x + width as real }
    function Bottom(): real { y + height as real }
  }

  /** The object counts as caught when its box, shrunk by `Margin` on every side,
      overlaps the basket's box on both axes, all four comparisons strict. */
  function CheckCollision(obj: Rect, basket: Rect): (hit: bool)
    ensures obj.width as real > 2.0 * Margin && obj.height as real > 2.0 * Margin
            && basket.width > 0 && basket.height > 0 ==>
              (hit <==> ShareInteriorPoint(obj, Margin, basket, 0.0))
    ensures (obj.Right() - Margin == basket.x || obj.x + Margin == basket.Right()
             || obj.Bottom() - Margin == basket.y || obj.y + Margin == basket.Bottom()) ==> !hit
  {
    var r := obj.Right() - Margin > basket.x
             && obj.x + Margin < basket.Right()
             && obj.Bottom() - Margin > basket.y
             && obj.y + Margin < basket.Bottom();
    if obj.width as real > 2.0 * Margin && obj.height as real > 2.0 * Margin
       && basket.width > 0 && basket.height > 0
    then
      OverlapByComparisons(obj, Margin, basket, 0.0); r
    else r
  }

  /** `p` lies strictly between `lo` and `hi`. */
  predicate InOpen(p: real, lo: real, hi: real) {
    lo < p < hi
  }

  /** (px, py) lies strictly inside `r` once `r` is shrunk by `inset` on every side. */
  predicate StrictlyInside(px: real, py: real, r: Rect, inset: real) {
    InOpen(px, r.x + inset, r.Right() - inset) && InOpen(py, r.y + inset, r.Bottom() - inset)
  }

  /** The reference meaning of an overlap: some point lies strictly inside both shrunk boxes. */
  ghost predicate ShareInteriorPoint(a: Rect, insetA: real, b: Rect, insetB: real) {
    exists px: real, py: real :: StrictlyInside(px, py, a, insetA) && StrictlyInside(px, py, b, insetB)
  }

  /** Two non-empty open intervals share a point exactly when each starts before the other ends. */
  lemma IntervalsMeet(lo1: real, hi1: real, lo2: real, hi2: real) returns (p: real)
    requires lo1 < hi1 && lo2 < hi2
    requires lo1 < hi2 && lo2 < hi1
    ensures InOpen(p, lo1, hi1) && InOpen(p, lo2, hi2)
  {
    var lo := if lo1 < lo2 then lo2 else lo1;
    var hi := if hi1 < hi2 then hi1 else hi2;
    p := (lo + hi) / 2.0;
  }

  /** Shared interior point test for boxes shrunk by arbitrary insets, as four strict comparisons. */
  lemma {:induction false} OverlapByComparisons(a: Rect, insetA: real, b: Rect, insetB: real)
    requires a.x + insetA < a.Right() - insetA && a.y + insetA < a.Bottom() - insetA
    requires b.x + insetB < b.Right() - insetB && b.y + insetB < b.Bottom() - insetB
    ensures ShareInteriorPoint(a, insetA, b, insetB) <==>
              a.x + insetA < b.Right() - insetB && b.x + insetB < a.Right() - insetA
              && a.y + insetA < b.Bottom() - insetB && b.y + insetB < a.Bottom() - insetA
  {
    if a.x + insetA < b.Right() - insetB && b.x + insetB < a.Right() - insetA
       && a.y + insetA < b.Bottom() - insetB && b.y + insetB < a.Bottom() - insetA
    {
      var px := IntervalsMeet(a.x + insetA, a.Right() - insetA, b.x + insetB, b.Right() - insetB);
      var py := IntervalsMeet(a.y + insetA, a.Bottom() - insetA, b.y + insetB, b.Bottom() - insetB);
      assert StrictlyInside(px, py, a, insetA) && StrictlyInside(px, py, b, insetB);
    }
  }

  /** The collision test holds exactly when some point lies strictly inside both the
      object's box shrunk by the margin and the basket's box. */
  lemma CollisionIsInteriorOverlap(obj: Rect, basket: Rect)
    requires obj.width as real > 2.0 * Margin && obj.height as real > 2.0 * Margin
    requires basket.width > 0 && basket.height > 0
    ensures CheckCollision(obj, basket) <==> ShareInteriorPoint(obj, Margin, basket, 0.0)
  {
    OverlapByComparisons(obj, Margin, basket, 0.0);
  }

  /** The margin may as well be taken off the basket: the test is the same as asking for
      a point strictly inside the object's full box and the basket's shrunk box. */
  lemma MarginOnBasketSide(obj: Rect, basket: Rect)
    requires obj.width > 0 && obj.height > 0
    requires basket.width as real > 2.0 * Margin && basket.height as real > 2.0 * Margin
    ensures CheckCollision(obj, basket) <==> ShareInteriorPoint(obj, 0.0, basket, Margin)
  {
    OverlapByComparisons(obj, 0.0, basket, Margin);
  }

  /** Boundary contact is not a hit: when the shrunk object box exactly touches the
      basket's box on any side, the strict comparisons reject it. */
  lemma EdgeContactIsNoHit(obj: Rect, basket: Rect)
    requires obj.Right() - Margin == basket.x || obj.x + Margin == basket.Right()
             || obj.Bottom() - Margin == basket.y || obj.y + Margin == basket.Bottom()
    ensures !CheckCollision(obj, basket)
  {
  }
}

=== FILE: poller.dfy ===
/** The collision poll that runs for every falling object: on a catch it scores and
    ends, while the object is still above the bottom it polls again, and otherwise it
    ends silently. */
module Poller {
  import opened Geometry
  import opened Scoring

  /** What one poll decides. */
  datatype PollResult = Caught(kind: Kind) | Reschedule | Stop

  /** The score after a poll together with its decision. */
  datatype PollOutcome = PollOutcome(score: int, result: PollResult)

  /** The decision of one poll of an object of `kind` whose box is `obj`. */
  function Poll(kind: Kind, obj: Rect, basket: Rect, screenHeight: int): (r: PollResult)
    ensures r.Caught? <==> CheckCollision(obj, basket)
    ensures r.Caught? ==> r.kind == kind
    ensures r.Reschedule? <==> !CheckCollision(obj, basket) && obj.y < screenHeight as real
    ensures r.Stop? <==> !CheckCollision(obj, basket) && obj.y >= screenHeight as real
  {
    if CheckCollision(obj, basket) then Caught(kind)
    else if obj.y < screenHeight as real then Reschedule
    else Stop
  }

  /** One poll applied to the score: only a catch moves it, by the catch rule. */
  function PollStep(score: int, kind: Kind, obj: Rect, basket: Rect, screenHeight: int): (o: PollOutcome)
    ensures o.result == Poll(kind, obj, basket, screenHeight)
    ensures o.result.Caught? ==> o.score == ApplyCatch(score, kind)
    ensures !o.result.Caught? ==> o.score == score
  {
    var r := Poll(kind, obj, basket, screenHeight);
    if r.Caught? then PollOutcome(ApplyCatch(score, kind), r) else PollOutcome(score, r)
  }

  /** What one poll of the chain sees: the object's height, as the fall animation has it,
      and the basket's box, read afresh because a drag may have moved it since the last poll. */
  datatype Sample = Sample(y: real, basket: Rect)

  /** The decision of the poll that sees `sm`. */
  function PollAt(kind: Kind, x: real, width: nat, height: nat, sm: Sample, screenHeight: int): PollResult {
    Poll(kind, Rect(x, sm.y, width, height), sm.basket, screenHeight)
  }

  /** The results of the successive polls of one object, given what each poll sees: the
      task goes on only while it reschedules itself, and the trace is cut short when the
      samples run out. */
  function PollTrace(kind: Kind, x: real, width: nat, height: nat, samples: seq<Sample>, screenHeight: int)
    : (t: seq<PollResult>)
    ensures |t| <= |samples|
    ensures forall i :: 0 <= i < |t| ==> t[i] == PollAt(kind, x, width, height, samples[i], screenHeight)
    ensures forall i :: 0 <= i < |t| - 1 ==> t[i] == Reschedule
    ensures |t| < |samples| ==> |t| > 0 && !t[|t| - 1].Reschedule?
    decreases |samples|
  {
    if |samples| == 0 then []
    else
      var r := PollAt(kind, x, width, height, samples[0], screenHeight);
      if r.Reschedule? then [r] + PollTrace(kind, x, width, height, samples[1..], screenHeight) else [r]
  }

  /** The kinds of the catches in a trace, in order. */
  function CaughtKinds(t: seq<PollResult>): seq<Kind>
    decreases |t|
  {
    if |t| == 0 then []
    else (if t[0].Caught? then [t[0].kind] else []) + CaughtKinds(t[1..])
  }

  /** Each object resolves at most once, wherever the basket is at each poll: every poll
      but the last rescheduled, the i-th poll saw the i-th sample, the trace ends early
      only on a catch or a stop, and at most one catch, of the object's own kind and only
      as the last poll, is scored. */
  lemma {:induction false} PollTraceResolvesOnce(
    kind: Kind, x: real, width: nat, height: nat, samples: seq<Sample>, screenHeight: int)
    ensures var t := PollTrace(kind, x, width, height, samples, screenHeight);
            |t| <= |samples|
            && (forall i :: 0 <= i < |t| ==> t[i] == PollAt(kind, x, width, height, samples[i], screenHeight))
            && (forall i :: 0 <= i < |t| - 1 ==> t[i] == Reschedule)
            && (|t| < |samples| ==> |t| > 0 && !t[|t| - 1].Reschedule?)
            && (CaughtKinds(t) == [] || CaughtKinds(t) == [kind])
            && (CaughtKinds(t) == [kind] <==> |t| > 0 && t[|t| - 1].Caught?)
    decreases |samples|
  {
    var t := PollTrace(kind, x, width, height, samples, screenHeight);
    if |samples| > 0 {
      var r := PollAt(kind, x, width, height, samples[0], screenHeight);
      if r.Reschedule? {
        PollTraceResolvesOnce(kind, x, width, height, samples[1..], screenHeight);
        var rest := PollTrace(kind, x, width, height, samples[1..], screenHeight);
        assert t == [r] + rest;
        assert t[1..] == rest;
        assert CaughtKinds(t) == CaughtKinds(rest);
      } else {
        assert t == [r];
        assert t[1..] == [];
      }
    }
  }

  /** Over an object's whole trace, with the basket free to move between polls, the score
      moves by at most one catch of its kind. */
  lemma TraceScoresAtMostOnce(
    score: int, kind: Kind, x: real, width: nat, height: nat, samples: seq<Sample>, screenHeight: int)
    ensures var t := PollTrace(kind, x, width, height, samples, screenHeight);
            var s := ScoreAfter(score, CaughtKinds(t));
            (s == score || s == ApplyCatch(score, kind))
            && (s != score <==> |t| > 0 && t[|t| - 1].Caught?)
  {
    PollTraceResolvesOnce(kind, x, width, height, samples, screenHeight);
    var t := PollTrace(kind, x, width, height, samples, screenHeight);
    assert CaughtKinds(t) == [kind] ==> [kind][1..] == [];
  }

  /** A candy of size 150 dropped in column 420 onto a 150 x 50 basket at (400, 1900) of a
      2000-high screen is caught once it reaches height 1900, scoring one point. */
  lemma CatchScenario()
    ensures var basket := Rect(400.0, 1900.0, 150, 50);
            var o := PollStep(0, Candy, Rect(420.0, 1900.0, 150, 150), basket, 2000);
            o.result == Caught(Candy) && o.score == 1
  {
  }
}

=== FILE: scoring.dfy ===
/** The scoring rule: catching a candy adds one point, catching a bomb takes one away,
    on a signed score that starts at zero. */
module Scoring {
  import opened Decimal

  datatype Kind = Candy | Bomb

  /** The text shown in the score view after a catch. */
  const ScorePrefix: string := "Score: "

  /** The score after one catch of `kind`. */
  function ApplyCatch(score: int, kind: Kind): (r: int)
    ensures r == score + 1 || r == score - 1
    ensures r > score <==> kind == Candy
  {
    if kind == Candy then score + 1 else score - 1
  }

  /** The score after a series of catches, applied one at a time in the given order. */
  function ScoreAfter(score: int, catches: seq<Kind>): (r: int)
    ensures score - |catches| <= r <= score + |catches|
    ensures (forall i :: 0 <= i < |catches| ==> catches[i] == Candy) ==> r == score + |catches|
    decreases |catches|
  {
    if |catches| == 0 then score else ScoreAfter(ApplyCatch(score, catches[0]), catches[1..])
  }

  /** Candies caught minus bombs caught: the order-free meaning of a series of catches. */
  function Tally(catches: seq<Kind>): int {
    multiset(catches)[Candy] as int - multiset(catches)[Bomb] as int
  }

  lemma TallyAppend(catches: seq<Kind>, kind: Kind)
    ensures Tally(catches + [kind]) == ApplyCatch(Tally(catches), kind)
  {
    assert multiset(catches + [kind]) == multiset(catches) + multiset{kind};
  }

  /** After N candy catches and M bomb catches the score has moved by exactly N - M. */
  lemma {:induction false} ScoreIsCandiesMinusBombs(score: int, catches: seq<Kind>)
    ensures ScoreAfter(score, catches) == score + Tally(catches)
    decreases |catches|
  {
    if |catches| > 0 {
      ScoreIsCandiesMinusBombs(ApplyCatch(score, catches[0]), catches[1..]);
      assert catches == [catches[0]] + catches[1..];
      assert multiset(catches) == multiset{catches[0]} + multiset(catches[1..]);
    }
  }

  /** The order in which catches are applied does not matter. */
  lemma ScoreOrderIndependent(score: int, a: seq<Kind>, b: seq<Kind>)
    requires multiset(a) == multiset(b)
    ensures ScoreAfter(score, a) == ScoreAfter(score, b)
  {
    ScoreIsCandiesMinusBombs(score, a);
    ScoreIsCandiesMinusBombs(score, b);
  }

  /** The score view's text. */
  function ScoreText(score: int): (t: string)
    ensures ParseLabelled(ScorePrefix, t) == Some(score)
    ensures |t| > |ScorePrefix| && t[..|ScorePrefix|] == ScorePrefix && CanonicalInt(t[|ScorePrefix|..])
  {
    LabelledRoundTrip(ScorePrefix, score);
    Labelled(ScorePrefix, score)
  }
}

=== FILE: spawner.dfy ===
/** Creating a falling object: a random kind and a random start column, drawn from a
    range that is clamped to at least one so that the draw is valid on any screen. */
module Spawner {
  import opened Scoring

  /** Side length of a falling object's square view. */
  const ObjectSize: nat := 150

  /** A falling object: its kind, its fixed column and its current height on screen. */
  datatype FallingObject = FallingObject(kind: Kind, x: real, y: real)

  /** The exclusive upper bound of the start column draw. */
  function SpawnBound(screenWidth: int): (b: int)
    ensures b >= 1
    ensures b >= screenWidth - ObjectSize
    ensures b == 1 || b == screenWidth - ObjectSize
  {
    if screenWidth - ObjectSize > 1 then screenWidth - ObjectSize else 1
  }

  /** What the random source promises of a draw for a screen of this width. */
  predicate ValidDraw(draw: int, screenWidth: int) {
    0 <= draw < SpawnBound(screenWidth)
  }

  /** The object created from the random kind (`isBall` means candy) and the random column `draw`. */
  function Spawn(isBall: bool, draw: int, screenWidth: int): (o: FallingObject)
    requires ValidDraw(draw, screenWidth)
    ensures o.kind == Candy <==> isBall
    ensures o.y == 0.0
    ensures o.x == draw as real
    ensures 0.0 <= o.x < SpawnBound(screenWidth) as real
    ensures screenWidth > ObjectSize ==> o.x + ObjectSize as real < screenWidth as real
  {
    FallingObject(if isBall then Candy else Bomb, draw as real, 0.0)
  }

  /** The draw range is never empty, however narrow the screen; on a screen no wider
      than one object plus a pixel, column zero is the only draw. */
  lemma SpawnRangeNeverEmpty(screenWidth: int, x: int)
    ensures ValidDraw(0, screenWidth)
    ensures screenWidth <= ObjectSize + 1 ==> (ValidDraw(x, screenWidth) <==> x == 0)
  {
  }
}
